=== FILE: README.md ===
# Julian Day calendar engine, modelled in Dafny

This project models the calendar engine of `src/julian.rs`. The engine converts a civil date to a Julian Day and back, following the algorithms of chapter 7 of Meeus, *Astronomical Algorithms*. A civil date is a year, a month, and a day of the month whose fraction is the time of day. A Julian Day is a continuous count of days from the noon of -4712 January 1 in the Julian calendar.

The engine also answers these queries:
- which calendar governs a date: Julian strictly before 1582 October 15, Gregorian from then on;
- whether the date's year is a leap year;
- the day of the week;
- the day of the year;
- the signed and the unsigned number of days between two dates.

Modelling choices:
- The decimal type of the engine is exact base-10 arithmetic, so it is modelled as Dafny's exact `real`.
- `floor`, `trunc`, the truncated remainder `%` and the banker's `round` of the decimal library are written out in `DecimalArith`.
- Conversion of a decimal to an unsigned byte is written out as `ToByte`.
- Rust's truncated `%` on `i32` is written out as `IntRem`.
- In the inverse algorithm every intermediate value except the fraction of the day is a whole number, so it is held as an `int`.

Modules:
- `DecimalArith` holds the numeric primitives, with the floor identities the formulas rely on.
- `JulianDates` holds the types and every operation of the engine, one function per operation, in the engine's own branch structure.
- `ClosedForm` works the floors of the date-to-Julian-Day formula out into whole numbers. It shows that the formula counts exactly the days of the Julian and Gregorian calendars.
- `Inverse` proves what the Julian-Day-to-date algorithm guarantees, including that converting a Julian Day to a date and back gives the same Julian Day.
- `LeapYears` and `DayOfYear` set the engine's leap-year test and day-of-year ordinal against the calendar the formula counts. See the findings below.
- `WeekDays` proves that the weekday is the day count modulo 7, and that consecutive days fall on consecutive weekdays.
- `Intervals` covers the signed difference and the unsigned number of days between two dates.
- `TestVectors` restates the worked examples of the engine's tests and documentation.

Panics:
- The engine unwraps the weekday conversion, so it panics where that conversion fails. `JulianDates.DayOfTheWeek` returns the `Result` being unwrapped, and an `Err` marks the panic.

## Model

`ClosedForm.NextDay` and `ClosedForm.DaysInMonth` are not taken from the engine. They define the civil calendar independently: the month lengths of each calendar, and the day after a valid date. `ClosedForm.MonthLength` and `ClosedForm.NextDayIsNextJulianDay` measure the engine's formulas against them.

| member | source | states |
|---|---|---|
| JulianDates.WeekDayNumber | src/julian.rs:8-18 | Weekday discriminants run from Sunday = 0 to Saturday = 6. |
| JulianDates.ToByte | src/julian.rs:30 | A decimal converts to a byte exactly when it lies in [0, 256). The byte is then the decimal's whole part. |
| JulianDates.WeekDayFromDecimal | src/julian.rs:26-43 | A weekday is produced exactly for decimals in [0, 7), numbered by their whole part. Negative values and values of 256 or more give NonIntegerDecimal. Values from 7 to 255 give InvalidDayNumber. |
| JulianDates.GetCalendar | src/julian.rs:177-187 | A date is read as Julian exactly when it comes lexicographically before 1582-10-15, and as Gregorian otherwise. |
| JulianDates.ToJulianDay | src/julian.rs:72-94 | The Julian Day minus the day of the month, plus one half, is always a whole number. |
| JulianDates.FromJulianDay | src/julian.rs:190-234 | The conversion fails exactly on negative Julian Days. On success the day of the month keeps the fraction of the day of `JD + 0.5`. |
| JulianDates.CenturyCorrection | src/julian.rs:84-88 | The Julian calendar gets no correction. The Gregorian calendar gets -10 days in the 1500s and 1600s, the ten days the reform dropped. |
| JulianDates.LeapYear | src/julian.rs:122-131 | Every year the engine calls leap is divisible by 4. Every year divisible by 4 but not by 100, and every year divisible by 400, is leap in both calendars. `LeapYears.LeapYearAsWrittenDiffers` pins down the remaining century years. |
| JulianDates.Difference | src/julian.rs:170-174 | Two dates of the same month and calendar are as many days apart as their days of the month differ. `Intervals.DifferenceAntisymmetric` and `Intervals.DifferenceAdds` relate several differences. |
| JulianDates.Midnight | src/julian.rs:144 | The rounded date keeps the year and month. Its day is a whole number at most half a day from the original. |
| JulianDates.DayOfTheWeek | src/julian.rs:143-151 | The only failure, where the engine's unwrap panics, is NonIntegerDecimal; InvalidDayNumber never occurs. When the Julian Day of the rounded date is -1.5 or more, the query always succeeds. `WeekDays.DayOfTheWeekFromDayCount` gives the weekday's number. |
| JulianDates.OrdinalWith | src/julian.rs:156-165 | January counts its days from 0, and February from 31, whatever the leap-year decision. |
| JulianDates.DayOfTheYear | src/julian.rs:155-166 | Years not divisible by 4 are counted as common years, and years divisible by 4 but not by 100 as leap years. `DayOfYear.DayOfTheYearCountsDays` and `DayOfYear.DayOfTheYearRange` give the count and its range. |
| JulianDates.DaysBetween | src/julian.rs:133-137 | The days between two dates are never negative. They are zero exactly when the two dates have the same Julian Day. |
| ClosedForm.JulianDayFromMonthBase | src/julian.rs:75-92 | For every month that fits in a byte, the formula's Julian Day is a whole day count plus the day of the month less one half. The count is fixed by the year, the month and the calendar of the unshifted date. |
| ClosedForm.DayShift | src/julian.rs:92 | Within one month and calendar, adding to the day of the month adds the same amount to the Julian Day. |
| ClosedForm.CenturyCorrectionWhole | src/julian.rs:84-88 | The century correction with its decimal floors resolved to integer division. |
| ClosedForm.FebruaryBase | src/julian.rs:79-92 | March's base exceeds February's by February's civil length in the calendar given. |
| ClosedForm.MonthSpan | src/julian.rs:92 | In the March-based count, the formula's step from one month to the next is that month's civil length, for every month but February. |
| ClosedForm.NextDayBase | src/julian.rs:79-92 | The month base plus the day of the month grows by exactly one from a valid date to the next day. |
| ClosedForm.GregorianFebruary | src/julian.rs:84-88 | Across the Gregorian February/March seam the century correction removes the leap day of centuries not divisible by 400. |
| ClosedForm.MonthLength | src/julian.rs:79-92 | For months 1 to 11, the next month's base exceeds this month's by the civil length of the month, February included, in either calendar. |
| ClosedForm.YearTurn | src/julian.rs:79-92 | January 1 comes 31 days after December 1 of the year before. |
| ClosedForm.NextDayIsNextJulianDay | src/julian.rs:72-94 | Consecutive calendar days in one calendar have Julian Days exactly one apart. |
| JulianDates.JulianCount | src/julian.rs:207-212 | Day numbers before 2299161 are left as they are. From 2299161 on, at least the 10 days the reform dropped are added back. |
| JulianDates.DateOfCount | src/julian.rs:214-231 | The date assembled from a shifted day count keeps exactly the given fraction of the day as the fraction of its day of the month. |
| Inverse.DayNumberStages | src/julian.rs:198-212 | A non-negative Julian Day splits into a whole day number and a fraction in [0, 1). The day number is Gregorian exactly from Julian Day 2299160.5 on. The conversion's result is the date of the shifted count. |
| Inverse.CountStages | src/julian.rs:214-231 | The year, month and day stages resolve to `d == 365c + c/4` and `g == 153e/5`. The month counter is in 4..15, the day of the month is in 1..31 plus the fraction, and the date assembled is the one these values name. |
| Inverse.YearSplit | src/julian.rs:215-216 | The Julian years that fit in the shifted count leave between 123 and 488 days, from March 1 to the end of the following February. |
| Inverse.MonthSplit | src/julian.rs:217-219 | Within a March-based year, the month counter is in 4..15 and the day of the month in 1..31. |
| Inverse.CountCalendar | src/julian.rs:214-231 | The date assembled from a shifted count is read as Julian exactly when the count is below that of 1582-10-15. |
| Inverse.MonthBaseOfCount | src/julian.rs:221-231 | The month base of the assembled year and month equals the stage counts `d + g` plus the century correction of its calendar. |
| Inverse.FromJulianDayBounds | src/julian.rs:197-234 | A non-negative Julian Day yields a month in 1..12 and a day in [1, 32). |
| Inverse.FromJulianDayCalendar | src/julian.rs:207-212 | The date produced is read as Julian exactly when the Julian Day is before 2299160.5. |
| Inverse.CenturyMatches | src/julian.rs:207-231 | In the Gregorian range, the century of the year produced is `alpha + 4`. So the forward century correction cancels the inverse one. |
| Inverse.FromJulianDayRoundTrip | src/julian.rs:190-234 | Converting a non-negative Julian Day to a date and back gives the same Julian Day. |
| LeapYears.FebruaryLength | src/julian.rs:79-92 | The formula gives February 29 days in the leap years of the calendar in force, and 28 otherwise. |
| LeapYears.LeapYearIntendedMatchesFebruary | src/julian.rs:117-131 | The corrected leap-year test holds exactly when the formula gives that year's February 29 days. |
| LeapYears.LeapYearAsWrittenDiffers | src/julian.rs:122-131 | The engine's leap-year test differs from the corrected one exactly in years divisible by 100 but not by 400. |
| LeapYears.LeapYear1900 | src/julian.rs:124-125 | The engine calls 1900 a leap year, but the formula gives its February 28 days. |
| LeapYears.LeapYear1500 | src/julian.rs:127-128 | The engine calls 1500 a common year, but the formula gives its February 29 days. |
| DecimalArith.Floor | src/julian.rs:86-92 | The decimal `floor()` gives the integer `r` with `r <= x < r + 1`. The same floor is taken at lines 164, 204 and 210-219. |
| DecimalArith.Trunc | src/julian.rs:164-165 | The truncation that `to_i32()` applies rounds toward zero. For `x >= 0` the result is non-negative with `r <= x < r + 1`. For `x < 0` it is non-positive with `r - 1 < x <= r`. The same truncation happens at line 233. |
| DecimalArith.Abs | src/julian.rs:136 | The decimal `abs()` is non-negative and equals `x` or `-x`. |
| DecimalArith.IntRem | src/julian.rs:125-128 | Rust's `%` on `i32` is truncated: in `[0, n)` for a non-negative dividend and in `(-n, 0]` for a negative one. Its contract gives only these bounds; `DecimalArith.DivisibilityAgrees` ties its zero test to Euclidean divisibility. |
| DecimalArith.DivisibilityAgrees | src/julian.rs:125-128 | Rust's truncated remainder by 4, 100 or 400 is zero exactly when the Euclidean one is. |
| DecimalArith.DecRem7 | src/julian.rs:148 | The truncated remainder by 7 has the sign of the dividend and magnitude below 7, and differs from the dividend by a whole multiple of 7. |
| DecimalArith.RoundHalfEven | src/julian.rs:144 | Rounding moves a value by at most one half. Ties go to the even neighbour. |
| WeekDays.DayCountIsWhole | src/julian.rs:144-148 | The Julian Day of the day-rounded date, plus 1.5, is a whole number. |
| WeekDays.WholeRemainder | src/julian.rs:148 | On a whole number, the truncated remainder by 7 is the Euclidean one when the number is non-negative. When it is negative, the remainder is that minus 7, or 0. |
| WeekDays.MidnightOfWhole | src/julian.rs:144 | A date on a whole day is unchanged by rounding its day. |
| WeekDays.DayCountOfNextDay | src/julian.rs:144-148 | On whole days in one calendar, the next day's day count is one more. |
| WeekDays.DayOfTheWeekFromDayCount | src/julian.rs:143-151 | From the epoch on, the weekday query succeeds and numbers the weekday by the day count modulo 7. Before the epoch, a count not divisible by 7 makes it fail, where the engine panics. |
| WeekDays.WeekDaysFollowDayCount | src/julian.rs:143-151 | Between two dates from the epoch on, the weekday numbers advance by the difference of their day counts, modulo 7. |
| WeekDays.WeekDayOfNextDay | src/julian.rs:139-151 | The day after a whole date falls on the following weekday, within one calendar. |
| WeekDays.EveningReadsNextWeekDay | src/julian.rs:144 | Because the day is rounded to the nearest midnight, 1957-10-4.0 reads Friday but the evening 1957-10-4.81 reads Saturday. |
| WeekDays.NoonSkipsWeekDay | src/julian.rs:144 | Because ties round to the even day, the noon of 1957-10-4 reads Friday and the noon of 1957-10-5 reads Sunday, skipping Saturday. |
| WeekDays.StartOfDay | src/julian.rs:144 | The midnight starting the day a date falls in keeps the year and month. Its day is whole and at most one day before the date, never after it. |
| WeekDays.DayOfTheWeekIntended | src/julian.rs:139-151 | The corrected weekday, read at the midnight that starts the day, agrees with the engine on whole days. Its only failure is NonIntegerDecimal. |
| WeekDays.WeekDayOfStart | src/julian.rs:144 | The corrected weekday of a date is the engine's weekday of the start of its day. |
| WeekDays.EveningReadsSameWeekDay | src/julian.rs:139-151 | With the correction, the evening and the noon of 1957-10-4 both read Friday. |
| WeekDays.StartOfNextDay | src/julian.rs:144 | The start of the day after a valid date is the day after the start of its day, in the same calendar. |
| WeekDays.WeekDayIntendedOfNextDay | src/julian.rs:139-151 | At any time of a valid date from the epoch on, the day after it falls on the following weekday of the corrected query, within one calendar. |
| DayOfYear.YearLength | src/julian.rs:153-154 | The months of a year add up to 365 days, or 366 in a leap year. |
| DayOfYear.MonthBaseCountsDays | src/julian.rs:79-92 | A month's base exceeds January's by the days of the months before it. |
| DayOfYear.OrdinalBase | src/julian.rs:156-164 | The whole part of the 275m/9 formula is the number of days before the month when `k` matches the calendar's leap year. |
| DayOfYear.OrdinalWithWhole | src/julian.rs:161-165 | The ordinal formula with its decimal floors resolved to integer division. |
| DayOfYear.ReformGap | src/julian.rs:177-187 | The days the reform dropped between January 0 and a date are 10 exactly for the Gregorian dates of 1582, and 0 for every other date. |
| DayOfYear.ReformYearBase | src/julian.rs:84-92 | In 1582 the Gregorian count of January starts ten days behind the Julian one. |
| DayOfYear.OrdinalCountsDays | src/julian.rs:155-166 | Given the calendar's own leap decision, the ordinal is the truncated number of days since day 0 of January. On the Gregorian dates of 1582 it is ten more: it also counts the days the reform dropped, as a wholly Gregorian year would. |
| DayOfYear.DayOfTheYearIntendedCountsDays | src/julian.rs:155-166 | With the corrected leap-year test, the day of the year counts the days since January began, plus the ten days the reform dropped on the Gregorian dates of 1582. |
| DayOfYear.DayOfTheYearCountsDays | src/julian.rs:155-166 | With the engine's leap-year test, the day of the year counts the days since January began in every year except centuries not divisible by 400. On the Gregorian dates of 1582 it also counts the ten days the reform dropped. |
| DayOfYear.DayOfTheYearReform | src/julian.rs:155-166 | 1582-10-15 is day 288 of its year for the engine, though only 278 days had passed since January 0. |
| DayOfYear.DayOfTheYearRange | src/julian.rs:153-166 | On a valid date, the engine's day of the year runs from 1 to 365, or to 366 when it calls the year leap, as its documentation promises. This holds even in the century years where its leap-year test is wrong. |
| DayOfYear.DayOfTheYearIntendedRange | src/julian.rs:153-154 | On a valid date, the corrected day of the year runs from 1 to 365, or to 366 in a leap year. |
| DayOfYear.March1900IsDay60 | src/julian.rs:168-174 | By the difference of their Julian Days, 1900-03-01 is 60 days after day 0 of January 1900. |
| DayOfYear.DayOfTheYearCenturyOffset | src/julian.rs:155-166 | From March on, in every century not divisible by 400, the engine's day of the year is one day ahead of the days elapsed in a Gregorian year and one day behind in a Julian year. |
| DayOfYear.DayOfTheYear1900 | src/julian.rs:155-166 | 1900 March 1 is day 60 of its year for the corrected ordinal, but the engine returns 61. |
| Intervals.DifferenceAntisymmetric | src/julian.rs:168-174 | Swapping the dates negates the difference, and a date is zero days from itself. |
| Intervals.DifferenceAdds | src/julian.rs:168-174 | Differences add up along a chain of dates. |
| Intervals.DaysBetweenSymmetric | src/julian.rs:133-137 | The days between two dates do not depend on their order, and equal the difference taken in one order or the other. |
| Intervals.DifferenceWithinMonth | src/julian.rs:133-137 | Within one month and calendar, the days between two dates are the distance between their days of the month. |
| Intervals.DaysBetweenNextDay | src/julian.rs:133-137 | Consecutive days of one calendar are one day apart. |
| TestVectors.CalendarExamples | src/julian.rs:242-254 | The calendar on either side of the reform, including 1582-10-14.9 (Julian) and 1582-10-15.0 (Gregorian). |
| TestVectors.Example7a | src/julian.rs:258-260 | 1957-10-4.81 is Julian Day 2436116.31. |
| TestVectors.Example7b | src/julian.rs:262-264 | 333-1-27.5 is Julian Day 1842713.0. |
| TestVectors.GregorianExamples | src/julian.rs:267-273 | 2000-1-1.5 is Julian Day 2451545.0, and 1999-1-1 is 2451179.5. |
| TestVectors.MoreGregorianExamples | src/julian.rs:269-275 | 1987-1-27 is Julian Day 2446822.5, and 1600-12-31 is 2305812.5. |
| TestVectors.JulianCalendarExamples | src/julian.rs:278-284 | 837-4-10.3 is Julian Day 2026871.8, and -123-12-31 is 1676496.5. |
| TestVectors.MoreJulianCalendarExamples | src/julian.rs:280-286 | -1000-7-12.5 is Julian Day 1356001.0, and -4712-1-1.5 is 0.0. |
| TestVectors.CalendarDateExamples | src/julian.rs:290-295 | Julian Day 2436116.31 converts to 1957-10-4.81. |
| TestVectors.NegativeJulianDayRefused | src/julian.rs:197-200 | Julian Day -1 is refused with InvalidJulianDay. |
| TestVectors.IntervalExample | src/julian.rs:298-303 | 1910-4-20 and 1986-2-9 are 27689 days apart. |
| TestVectors.WeekDayExample | src/julian.rs:306-309 | 1954-6-30 is a Wednesday. |
| TestVectors.LastJulianWeekDay | src/julian.rs:141-142 | 1582-10-4 is a Thursday. |
| TestVectors.FirstGregorianWeekDay | src/julian.rs:141-142 | 1582-10-15 is a Friday. |
| TestVectors.DayOfTheYearExamples | src/julian.rs:312-318 | 1978-11-14 is day 318 of its year, and 1988-4-22 is day 113. |

## Left out

- The debug print of the intermediate Julian Day in the weekday query (src/julian.rs:146) is an output side effect, not a result, so it is not modelled.
- The decimal library holds 28 significant digits and rounds inexact quotients. The model divides exactly in `real`. The whole-number quantities of both formulas are exact either way, but a quotient such as `(z - 1867216.25) / 36524.25` is not rounded before its floor in the model.
- The year is an `i32` and the month a `u8`. They are unbounded `int` here, so the overflow of `y - 1` at `i32::MIN` (src/julian.rs:79-82) is not modelled. The month is increased by 12 only when it is 1 or 2, so that step cannot overflow.
- The unwraps of `to_i32` and `to_u8` in the day of the year (src/julian.rs:165) and in the inverse conversion (src/julian.rs:233) can panic out of range. The model returns the unbounded value. For the inverse conversion, `Inverse.FromJulianDayBounds` proves the month is always in 1..12, so that unwrap never fails.
- The weekday query's unwrap (src/julian.rs:150) is modelled as the `Result` being unwrapped. An `Err` stands for the panic.
- Derived trait impls (`Debug`, `Clone`, `Copy`, `PartialEq`, `PartialOrd`) and the by-value `From<CalendarDate>` wrapper (src/julian.rs:62-70) only delegate, so they are not modelled separately.
- `CalendarDate::new` and `JulianDay::new` are the datatype constructors.
- The decimal library's negative zero is not distinguished from zero.
- DecimalArith.DecRem7: the decimal remainder is modelled only for the divisor 7, the only divisor the engine uses.
- DecimalArith.IntRem: its contract gives only the bounds of Rust's truncated remainder. Agreement with Euclidean divisibility is stated for the divisors the engine uses (4, 100, 400) by `DecimalArith.DivisibilityAgrees`.
- The date-to-Julian-Day-to-date round trip is not stated for all dates. The engine disclaims it (src/julian.rs:65-66), since dates that do not exist, such as 1582-10-10 or February 30, are accepted unchecked. The reverse round trip is proved as `Inverse.FromJulianDayRoundTrip`.
- ClosedForm.JulianDayFromMonthBase: the month-base identity is stated for months 0..255, the range of the engine's `u8` month.

## Findings

The engine's leap-year test swaps the rules of the two calendars, and its weekday query reads the nearest midnight rather than the one that starts the day. `JulianDates.LeapYear` and `JulianDates.DayOfTheYear` reproduce the test exactly as written. `LeapYears.LeapYearIntended` is the rule that the engine's own date-to-Julian-Day formula counts. `JulianDates.DayOfTheWeek` reproduces the weekday query as written, and `WeekDays.DayOfTheWeekIntended` reads the weekday at the start of the day.

| source | as written | input that shows it | evidently intended | confidence | as-written member | corrected member |
|---|---|---|---|---|---|---|
| src/julian.rs:122-131 | The Gregorian branch tests only divisibility by 4. The Julian branch applies the century exception. | 1900-03-01: the engine says leap, yet the date-to-Julian-Day formula gives February 1900 28 days. 1500-03-01 is the reverse. | Julian: every fourth year. Gregorian: every fourth year except centuries not divisible by 400. This is the rule the engine's own Julian Day formula counts. | not executed | LeapYears.LeapYearAsWrittenDiffers | LeapYears.LeapYearIntendedMatchesFebruary |
| src/julian.rs:155-166 | The day of the year uses the swapped leap-year test. | 1900-03-01 gives 61, though it is the 60th day of 1900 (`DayOfYear.DayOfTheYear1900`). In every century not divisible by 400, from March on, the result is one day off. | The ordinal of a date counts the days since January began. On the Gregorian dates of 1582 it also counts the ten days the reform dropped, both as written and corrected (`DayOfYear.DayOfTheYearReform`). | not executed | DayOfYear.DayOfTheYearCenturyOffset | DayOfYear.DayOfTheYearIntendedCountsDays |
| src/julian.rs:144 | The weekday query rounds the day of the month to the nearest midnight, ties to even, before reading the weekday. | 1957-10-4.81, the evening of a Friday, reads Saturday. The noon 1957-10-4.5 reads Friday and the noon 1957-10-5.5 reads Sunday, so Saturday is skipped. | The weekday of the day the date falls in, read at the midnight that starts it, as the query's documentation and its name for the rounded date say. | not executed | WeekDays.EveningReadsNextWeekDay | WeekDays.WeekDayIntendedOfNextDay |

=== FILE: closed_form.dfy ===
/**
 The date-to-Julian-Day formula with its floors worked out: for every month
 that fits in a byte, the Julian Day of a date is a whole day count fixed by
 its year, month and calendar, plus the day of the month. From that whole
 count follow the month lengths the formula implies, which are those of
 the Julian and Gregorian calendars.
 */
module ClosedForm {
  import opened DecimalArith
  import opened JulianDates

  /**
   The leap-year rule each calendar is known by: every fourth year in the
   Julian calendar, and in the Gregorian calendar every fourth year except
   the centuries not divisible by 400.
   */
  predicate CalendarLeap(y: int, cal: Calendar)
  {
    match cal
    case Julian => y % 4 == 0
    case Gregorian => y % 4 == 0 && (y % 100 != 0 || y % 400 == 0)
  }

  /** Length of a month of the civil calendar. */
  function DaysInMonth(y: int, m: int, cal: Calendar): (n: int)
    requires 1 <= m <= 12
    ensures 28 <= n <= 31
    ensures m == 2 ==> (n == 29 <==> CalendarLeap(y, cal))
  {
    if m == 2 then (if CalendarLeap(y, cal) then 29 else 28)
    else if m == 4 || m == 6 || m == 9 || m == 11 then 30
    else 31
  }

  /**
   The Julian Day, as a whole number, of the noon of day 0 of month `m` of
   year `y` (the last day of the previous month), read in calendar `cal`:
   the formula's floors resolved into integer arithmetic. January and
   February count as months 13 and 14 of the year before.
   */
  function MonthBase(y: int, m: int, cal: Calendar): (base: int)
  {
    var y' := if m == 1 || m == 2 then y - 1 else y;
    var m' := if m == 1 || m == 2 then m + 12 else m;
    YearBase(y', cal) + 153 * (m' + 1) / 5
  }

  /**
   The part of a month base fixed by the March-based year alone: the days
   of the Julian years since -4716, with the Gregorian century correction.
   */
  function YearBase(y: int, cal: Calendar): (base: int)
  {
    var b := match cal
      case Gregorian => 2 - y / 100 + (y / 100) / 4
      case Julian => 0;
    365 * (y + 4716) + (y + 4716) / 4 + b - 1524
  }

  /**
   For every month a byte can hold, the Julian Day of a date is its month
   base plus the day of the month, less half a day.
   */
  lemma JulianDayFromMonthBase(c: CalendarDate)
    requires 0 <= c.m < 256
    ensures ToJulianDay(c).day == MonthBase(c.y, c.m, GetCalendar(c)) as real + c.d - 0.5
  {
    var y' := if c.m == 1 || c.m == 2 then c.y - 1 else c.y;
    var m' := if c.m == 1 || c.m == 2 then c.m + 12 else c.m;
    FloorOfYears(y' + 4716);
    assert 365.25 * (y' as real + 4716.0) == 365.25 * (y' + 4716) as real;
    FloorOfMonths(m' + 1);
    assert 30.6001 * (m' as real + 1.0) == 30.6001 * (m' + 1) as real;
    CenturyCorrectionWhole(y', GetCalendar(c));
  }

  /** The century correction with its floors resolved to integer division. */
  lemma CenturyCorrectionWhole(y: int, cal: Calendar)
    ensures CenturyCorrection(y, cal) == YearBase(y, cal) - 365 * (y + 4716) - (y + 4716) / 4 + 1524
  {
    FloorOfQuotient(y, 100);
    FloorOfQuotient(y / 100, 4);
  }

  /** Moving the day within one calendar moves the Julian Day by as much. */
  lemma DayShift(c: CalendarDate, delta: real)
    requires GetCalendar(c) == GetCalendar(CalendarDate(c.y, c.m, c.d + delta))
    ensures ToJulianDay(CalendarDate(c.y, c.m, c.d + delta)).day == ToJulianDay(c).day + delta
  {
    assert Difference(CalendarDate(c.y, c.m, c.d + delta), c) == delta;
  }

  /**
   Across the February/March seam of a Gregorian year the century terms
   take away the leap day of centuries not divisible by 400.
   */
  lemma GregorianFebruary(y: int)
    ensures (y + 4716) / 4 - (y + 4715) / 4 + (2 - y / 100 + (y / 100) / 4)
      - (2 - (y - 1) / 100 + ((y - 1) / 100) / 4)
      == (if CalendarLeap(y, Gregorian) then 1 else 0)
  {
    var q, r := y / 400, y % 400;
    assert y == r + 4 * (100 * q) == r + 100 * (4 * q);
    QuarterShift(r, 100 * q);
    CenturyShift(r, 4 * q);
    assert y % 4 == r % 4 && y % 100 == r % 100 && y % 400 == r;
    QuarterShift(r + 4716, 100 * q);
    QuarterShift(r + 4715, 100 * q);
    var leap4 := (y + 4716) / 4 - (y + 4715) / 4;
    assert leap4 == (r + 4716) / 4 - (r + 4715) / 4;
    assert leap4 == (if r % 4 == 0 then 1 else 0);
    CenturyShift(r, 4 * q);
    assert y / 100 == r / 100 + 4 * q;
    QuarterShift(r / 100, q);
    assert (y / 100) / 4 == q;
    if r == 0 {
      CenturyShift(99, 4 * q - 1);
      assert (y - 1) / 100 == 4 * q - 1;
      QuarterShift(3, q - 1);
      assert ((y - 1) / 100) / 4 == q - 1;
    } else {
      CenturyShift(r - 1, 4 * q);
      assert (y - 1) / 100 == (r - 1) / 100 + 4 * q;
      QuarterShift((r - 1) / 100, q);
      assert ((y - 1) / 100) / 4 == q;
      assert r / 100 - (r - 1) / 100 == (if r % 100 == 0 then 1 else 0);
    }
  }

  /** Whole multiples of 4 pass through division by 4. */
  lemma QuarterShift(a: int, n: int)
    ensures (a + 4 * n) / 4 == a / 4 + n
    ensures (a + 4 * n) % 4 == a % 4
  {
  }

  /** Whole multiples of 100 pass through division by 100. */
  lemma CenturyShift(a: int, n: int)
    ensures (a + 100 * n) / 100 == a / 100 + n
    ensures (a + 100 * n) % 100 == a % 100
  {
  }

  /** The month bases of consecutive months lie a month's length apart. */
  lemma MonthLength(y: int, m: int, cal: Calendar)
    requires 1 <= m <= 11
    ensures MonthBase(y, m + 1, cal) - MonthBase(y, m, cal) == DaysInMonth(y, m, cal)
  {
    if m == 2 {
      FebruaryBase(y, cal);
    } else {
      var y' := if m == 1 then y - 1 else y;
      var m' := if m == 1 then 13 else m;
      assert MonthBase(y, m, cal) == YearBase(y', cal) + 153 * (m' + 1) / 5;
      assert MonthBase(y, m + 1, cal) == YearBase(y', cal) + 153 * (m' + 2) / 5;
      MonthSpan(m');
    }
  }

  /**
   In the March-based count every month but February is as long as the
   formula's step `153(m'+2)/5 - 153(m'+1)/5`.
   */
  lemma MonthSpan(m': int)
    requires 3 <= m' <= 13
    ensures 153 * (m' + 2) / 5 - 153 * (m' + 1) / 5 == DaysInMonth(0, if m' == 13 then 1 else m', Julian)
  {
  }

  /** February of year `y` runs from the base of its month to that of March. */
  lemma FebruaryBase(y: int, cal: Calendar)
    ensures MonthBase(y, 3, cal) - MonthBase(y, 2, cal) == DaysInMonth(y, 2, cal)
  {
    assert MonthBase(y, 3, cal) - MonthBase(y, 2, cal) == YearBase(y, cal) - YearBase(y - 1, cal) - 337;
    match cal
    case Julian =>
      assert (y + 4716) / 4 - (y + 4715) / 4 == (if y % 4 == 0 then 1 else 0);
    case Gregorian =>
      GregorianFebruary(y);
  }

  /** December of one year is followed 31 days later by January of the next. */
  lemma YearTurn(y: int, cal: Calendar)
    ensures MonthBase(y + 1, 1, cal) - MonthBase(y, 12, cal) == 31
  {
  }

  /** A date of the civil calendar: a real month, and a day within it. */
  predicate ValidDate(c: CalendarDate)
  {
    1 <= c.m <= 12 && 1.0 <= c.d < (DaysInMonth(c.y, c.m, GetCalendar(c)) + 1) as real
  }

  /**
   The same time of day on the following day of the calendar: one day more
   within the month, or day 1 of the next month (of January of the next
   year after December) once the month's days run out.
   */
  function NextDay(c: CalendarDate): (n: CalendarDate)
    requires ValidDate(c)
    ensures 1 <= n.m <= 12 && 1.0 <= n.d
    ensures n.y == c.y || (n.y == c.y + 1 && c.m == 12 && n.m == 1)
    ensures n.m == c.m <==> c.d + 1.0 < (DaysInMonth(c.y, c.m, GetCalendar(c)) + 1) as real
    ensures n.m == c.m ==> n.y == c.y && n.d == c.d + 1.0
    ensures n.m != c.m ==> n.m == c.m % 12 + 1 && n.d < 2.0
    ensures n.m != c.m ==> n.d == c.d + 1.0 - DaysInMonth(c.y, c.m, GetCalendar(c)) as real
  {
    var len := DaysInMonth(c.y, c.m, GetCalendar(c));
    if c.d + 1.0 < (len + 1) as real then CalendarDate(c.y, c.m, c.d + 1.0)
    else if c.m < 12 then CalendarDate(c.y, c.m + 1, c.d + 1.0 - len as real)
    else CalendarDate(c.y + 1, 1, c.d + 1.0 - len as real)
  }

  /**
   Consecutive days of one calendar have consecutive Julian Days: the
   formula counts exactly the days of the Julian and Gregorian calendars.
   */
  lemma NextDayIsNextJulianDay(c: CalendarDate)
    requires ValidDate(c)
    requires GetCalendar(NextDay(c)) == GetCalendar(c)
    ensures ToJulianDay(NextDay(c)).day == ToJulianDay(c).day + 1.0
  {
    NextDayBase(c, GetCalendar(c));
    JulianDayFromMonthBase(c);
    JulianDayFromMonthBase(NextDay(c));
  }

  /** In any one calendar's count, the next day's month base and day add up to one more. */
  lemma NextDayBase(c: CalendarDate, cal: Calendar)
    requires ValidDate(c) && cal == GetCalendar(c)
    ensures MonthBase(NextDay(c).y, NextDay(c).m, cal) as real + NextDay(c).d
      == MonthBase(c.y, c.m, cal) as real + c.d + 1.0
  {
    var n := NextDay(c);
    if n.m != c.m {
      if c.m < 12 {
        MonthLength(c.y, c.m, cal);
      } else {
        YearTurn(c.y, cal);
      }
    }
  }
}

=== FILE: day_of_year.dfy ===
/**
 The day-of-year formula set against the day count of the date-to-Julian-Day
 formula: the ordinal of a date is the number of days since day 0 of
 January, provided the leap-year decision it is given is the calendar's.
 */
module DayOfYear {
  import opened DecimalArith
  import opened JulianDates
  import opened ClosedForm
  import opened LeapYears

  /** Days of the year that precede month `m`. */
  function DaysBefore(y: int, m: int, cal: Calendar): (n: int)
    requires 1 <= m <= 12
  {
    if m == 1 then 0 else DaysBefore(y, m - 1, cal) + DaysInMonth(y, m - 1, cal)
  }

  /** A year of the calendar has 365 days, or 366 in a leap year. */
  lemma {:induction false} YearLength(y: int, cal: Calendar)
    ensures DaysBefore(y, 12, cal) + DaysInMonth(y, 12, cal) == if CalendarLeap(y, cal) then 366 else 365
  {
    var feb := DaysInMonth(y, 2, cal);
    assert DaysBefore(y, 2, cal) == 31;
    assert DaysBefore(y, 3, cal) == 31 + feb;
    assert DaysBefore(y, 4, cal) == 62 + feb;
    assert DaysBefore(y, 5, cal) == 92 + feb;
    assert DaysBefore(y, 6, cal) == 123 + feb;
    assert DaysBefore(y, 7, cal) == 153 + feb;
    assert DaysBefore(y, 8, cal) == 184 + feb;
    assert DaysBefore(y, 9, cal) == 215 + feb;
    assert DaysBefore(y, 10, cal) == 245 + feb;
    assert DaysBefore(y, 11, cal) == 276 + feb;
    assert DaysBefore(y, 12, cal) == 306 + feb;
  }

  /** The month bases of a year climb by the lengths of the months. */
  lemma {:induction false} MonthBaseCountsDays(y: int, m: int, cal: Calendar)
    requires 1 <= m <= 12
    ensures MonthBase(y, m, cal) - MonthBase(y, 1, cal) == DaysBefore(y, m, cal)
  {
    if m > 1 {
      MonthBaseCountsDays(y, m - 1, cal);
      MonthLength(y, m - 1, cal);
    }
  }

  /**
   The whole-number part of the ordinal formula, `floor(275m/9) -
   k*floor((m+9)/12) - 30`, is the count of days before the month once
   `k` is 1 in leap years and 2 otherwise.
   */
  lemma {:induction false} OrdinalBase(y: int, m: int, cal: Calendar)
    requires 1 <= m <= 12
    ensures 275 * m / 9 - (if CalendarLeap(y, cal) then 1 else 2) * ((m + 9) / 12) - 30
      == DaysBefore(y, m, cal)
  {
    if m > 1 {
      OrdinalBase(y, m - 1, cal);
      assert (m + 9) / 12 == (if m < 3 then 0 else 1);
      assert (m + 8) / 12 == (if m < 4 then 0 else 1);
    }
  }

  /** The ordinal formula with its floors worked out. */
  lemma OrdinalWithWhole(c: CalendarDate, leap: bool)
    ensures OrdinalWith(c, leap)
      == Trunc((275 * c.m / 9 - (if leap then 1 else 2) * ((c.m + 9) / 12) - 30) as real + c.d)
  {
    assert 275.0 * c.m as real / 9.0 == (275 * c.m) as real / 9 as real;
    FloorOfQuotient(275 * c.m, 9);
    assert (c.m as real + 9.0) / 12.0 == (c.m + 9) as real / 12 as real;
    FloorOfQuotient(c.m + 9, 12);
  }

  /** Day 0 of January of the date's year. */
  function YearStart(c: CalendarDate): (start: CalendarDate)
  {
    CalendarDate(c.y, 1, 0.0)
  }

  /**
   The days the reform dropped between day 0 of January and the date: ten
   for the Gregorian dates of 1582, whose January was Julian, and none for
   any other date.
   */
  function ReformGap(c: CalendarDate): (gap: int)
    ensures gap == 0 || gap == 10
    ensures gap == 10 <==> c.y == 1582 && GetCalendar(c) == Gregorian
  {
    if GetCalendar(c) == GetCalendar(YearStart(c)) then 0 else 10
  }

  /** In 1582 the Gregorian count of January is ten days behind the Julian one. */
  lemma ReformYearBase()
    ensures MonthBase(1582, 1, Gregorian) == MonthBase(1582, 1, Julian) - 10
  {
  }

  /**
   Given the calendar's own leap-year decision, the ordinal formula counts
   the days since day 0 of January, fraction of the day dropped. On the
   Gregorian dates of 1582 it also counts the ten days the reform dropped,
   numbering the days as a wholly Gregorian year would.
   */
  lemma OrdinalCountsDays(c: CalendarDate, leap: bool)
    requires 1 <= c.m <= 12
    requires leap == CalendarLeap(c.y, GetCalendar(c))
    ensures OrdinalWith(c, leap) == Trunc(Difference(c, YearStart(c)) + ReformGap(c) as real)
  {
    var cal := GetCalendar(c);
    OrdinalWithWhole(c, leap);
    OrdinalBase(c.y, c.m, cal);
    MonthBaseCountsDays(c.y, c.m, cal);
    JulianDayFromMonthBase(c);
    JulianDayFromMonthBase(YearStart(c));
    if ReformGap(c) == 10 {
      ReformYearBase();
    }
  }

  /** The day of the year with the calendar's own leap-year decision. */
  function DayOfTheYearIntended(c: CalendarDate): (n: int)
  {
    OrdinalWith(c, LeapYearIntended(c))
  }

  /**
   The intended day of the year counts the days since January began, the
   days the reform dropped included.
   */
  lemma DayOfTheYearIntendedCountsDays(c: CalendarDate)
    requires 1 <= c.m <= 12
    ensures DayOfTheYearIntended(c) == Trunc(Difference(c, YearStart(c)) + ReformGap(c) as real)
  {
    OrdinalCountsDays(c, LeapYearIntended(c));
  }

  /**
   The engine's day of the year counts the days since January began, the
   days the reform dropped included, in every year but the centuries not
   divisible by 400.
   */
  lemma DayOfTheYearCountsDays(c: CalendarDate)
    requires 1 <= c.m <= 12
    requires c.y % 100 != 0 || c.y % 400 == 0
    ensures DayOfTheYear(c) == Trunc(Difference(c, YearStart(c)) + ReformGap(c) as real)
  {
    LeapYearAsWrittenDiffers(c);
    OrdinalCountsDays(c, LeapYear(c));
  }

  /**
   1582 October 15, the first Gregorian day, is day 288 of its year for
   the engine, though only 278 days had passed since day 0 of January.
   */
  lemma DayOfTheYearReform()
    ensures DayOfTheYear(CalendarDate(1582, 10, 15.0)) == 288
    ensures Trunc(Difference(CalendarDate(1582, 10, 15.0), CalendarDate(1582, 1, 0.0))) == 278
  {
    assert ToJulianDay(CalendarDate(1582, 10, 15.0)).day == 2299160.5;
    assert ToJulianDay(CalendarDate(1582, 1, 0.0)).day == 2298882.5;
  }

  /**
   On a date of the calendar the intended day of the year runs from 1 to
   365, or to 366 in a leap year.
   */
  lemma DayOfTheYearIntendedRange(c: CalendarDate)
    requires ValidDate(c)
    ensures 1 <= DayOfTheYearIntended(c) <= if LeapYearIntended(c) then 366 else 365
  {
    var cal := GetCalendar(c);
    OrdinalWithWhole(c, LeapYearIntended(c));
    OrdinalBase(c.y, c.m, cal);
    YearLength(c.y, cal);
    DaysBeforeBound(c.y, c.m, cal);
  }

  /**
   The engine's day of the year, on a date of the calendar, runs from 1 to
   365, or to 366 when the engine calls the year a leap year. In the
   centuries where its leap-year test is wrong the result is still in
   range: it is one day off, but never past the end of the year.
   */
  lemma DayOfTheYearRange(c: CalendarDate)
    requires ValidDate(c)
    ensures 1 <= DayOfTheYear(c) <= if LeapYear(c) then 366 else 365
  {
    OrdinalWithWhole(c, LeapYear(c));
    OrdinalWithWhole(c, LeapYearIntended(c));
    OrdinalBase(c.y, c.m, GetCalendar(c));
    YearLength(c.y, GetCalendar(c));
    DaysBeforeBound(c.y, c.m, GetCalendar(c));
    LeapYearAsWrittenDiffers(c);
    DivisibilityAgrees(c.y);
    if c.y % 100 == 0 {
      CenturyIsLeapCandidate(c.y);
    }
  }

  /** The months up to and including `m` fit in the year. */
  lemma {:induction false} DaysBeforeBound(y: int, m: int, cal: Calendar)
    requires 1 <= m <= 12
    ensures DaysBefore(y, m, cal) + DaysInMonth(y, m, cal)
      <= DaysBefore(y, 12, cal) + DaysInMonth(y, 12, cal)
    decreases 12 - m
  {
    if m < 12 {
      DaysBeforeBound(y, m + 1, cal);
    }
  }

  /** 1900-03-01 is 60 days after day 0 of January 1900. */
  lemma March1900IsDay60()
    ensures Trunc(Difference(CalendarDate(1900, 3, 1.0), CalendarDate(1900, 1, 0.0))) == 60
  {
    assert ToJulianDay(CalendarDate(1900, 3, 1.0)).day == 2415079.5;
    assert ToJulianDay(CalendarDate(1900, 1, 0.0)).day == 2415019.5;
    assert Difference(CalendarDate(1900, 3, 1.0), CalendarDate(1900, 1, 0.0)) == 60.0;
  }

  /**
   From March on, in the centuries not divisible by 400, the engine's day of
   the year is one day ahead of the days elapsed in a Gregorian year, which
   it takes for leap, and one day behind in a Julian year, which it takes
   for common.
   */
  lemma DayOfTheYearCenturyOffset(c: CalendarDate)
    requires 3 <= c.m <= 12
    requires c.y % 100 == 0 && c.y % 400 != 0
    ensures DayOfTheYear(c)
      == Trunc(Difference(c, YearStart(c)) + if GetCalendar(c) == Gregorian then 1.0 else -1.0)
  {
    var cal := GetCalendar(c);
    LeapYearAsWrittenDiffers(c);
    OrdinalWithWhole(c, LeapYear(c));
    OrdinalBase(c.y, c.m, cal);
    MonthBaseCountsDays(c.y, c.m, cal);
    JulianDayFromMonthBase(c);
    JulianDayFromMonthBase(YearStart(c));
    assert (c.m + 9) / 12 == 1;
    assert ReformGap(c) == 0;
  }

  /** 1900-03-01 is the 60th day of 1900, but the engine says the 61st. */
  lemma DayOfTheYear1900()
    ensures DayOfTheYearIntended(CalendarDate(1900, 3, 1.0)) == 60
    ensures DayOfTheYear(CalendarDate(1900, 3, 1.0)) == 61
  {
    var mar := CalendarDate(1900, 3, 1.0);
    March1900IsDay60();
    assert LeapYear(mar) && !LeapYearIntended(mar);
    assert OrdinalWith(mar, true) == 61;
    assert OrdinalWith(mar, false) == 60;
  }
}

=== FILE: decimal_arith.dfy ===
/**
 The numeric primitives the calendar engine uses. The engine computes on
 exact base-10 decimals; here every decimal is an exact `real` and every
 rounding step of the decimal library is written out as its own function.
 */
module DecimalArith {

  /** Largest integer not above `x` (the decimal `floor`). */
  function Floor(x: real): (r: int)
    ensures r as real <= x < r as real + 1.0
  {
    x.Floor
  }

  /** The integer part of `x`, rounding toward zero (the decimal `trunc`). */
  function Trunc(x: real): (r: int)
    ensures 0.0 <= x ==> 0 <= r && r as real <= x < r as real + 1.0
    ensures x < 0.0 ==> r <= 0 && r as real - 1.0 < x <= r as real
  {
    if 0.0 <= x then Floor(x) else -Floor(-x)
  }

  /** The fractional part `x - floor(x)`, always in [0, 1). */
  function Frac(x: real): (r: real)
    ensures 0.0 <= r < 1.0
    ensures (x - r).Floor as real == x - r
  {
    x - Floor(x) as real
  }

  /** Absolute value of a decimal. */
  function Abs(x: real): (r: real)
    ensures 0.0 <= r
    ensures r == x || r == -x
  {
    if x < 0.0 then -x else x
  }

  /**
   The decimal remainder `x % 7`, the only decimal remainder the engine
   takes: the quotient is truncated toward zero, so the remainder carries
   the sign of the dividend (unlike Dafny's `%`).
   */
  function DecRem7(x: real): (r: real)
    ensures 0.0 <= x ==> 0.0 <= r < 7.0
    ensures x < 0.0 ==> -7.0 < r <= 0.0
    ensures Floor((x - r) / 7.0) as real == (x - r) / 7.0
  {
    var q := Trunc(x / 7.0);
    FloorOfWhole(q);
    assert (x - (x - 7.0 * q as real)) / 7.0 == q as real;
    x - 7.0 * q as real
  }

  /**
   The decimal `round()`: nearest integer, ties going to the even neighbour
   (banker's rounding, so 0.5 rounds to 0 and 1.5 rounds to 2).
   */
  function RoundHalfEven(x: real): (r: int)
    ensures Abs(x - r as real) <= 0.5
    ensures Abs(x - r as real) == 0.5 ==> r % 2 == 0
  {
    var f := Floor(x);
    var rest := x - f as real;
    if rest < 0.5 then f
    else if rest > 0.5 then f + 1
    else if f % 2 == 0 then f
    else f + 1
  }

  /** Rust's `%` on a machine integer: truncated, so the sign follows `a`. */
  function IntRem(a: int, n: int): (r: int)
    requires n > 0
    ensures 0 <= a ==> 0 <= r < n
    ensures a < 0 ==> -n < r <= 0
  {
    if 0 <= a then a % n else -((-a) % n)
  }

  /**
   The divisibility tests of the leap-year rules give the same answer under
   Rust's truncated remainder and Dafny's Euclidean one.
   */
  lemma DivisibilityAgrees(a: int)
    ensures IntRem(a, 4) == 0 <==> a % 4 == 0
    ensures IntRem(a, 100) == 0 <==> a % 100 == 0
    ensures IntRem(a, 400) == 0 <==> a % 400 == 0
  {
    NegatedDivisibility4(a);
    NegatedDivisibility100(a);
    NegatedDivisibility400(a);
  }

  /** 4 divides `-a` exactly when it divides `a`; likewise 100 and 400 below. */
  lemma NegatedDivisibility4(a: int)
    ensures (-a) % 4 == 0 <==> a % 4 == 0
  {
  }

  lemma NegatedDivisibility100(a: int)
    ensures (-a) % 100 == 0 <==> a % 100 == 0
  {
  }

  lemma NegatedDivisibility400(a: int)
    ensures (-a) % 400 == 0 <==> a % 400 == 0
  {
  }

  /** An integer is its own floor. */
  lemma FloorOfWhole(n: int)
    ensures Floor(n as real) == n
  {
  }

  /** The fractional part ignores whole days. */
  lemma FracOfShift(n: int, f: real)
    requires 0.0 <= f < 1.0
    ensures Floor(n as real + f) == n
    ensures Frac(n as real + f) == f
  {
  }

  /** Flooring a quotient of integers is Dafny's integer division. */
  lemma FloorOfQuotient(n: int, k: int)
    requires k > 0
    ensures Floor(n as real / k as real) == n / k
  {
    var q, r := n / k, n % k;
    assert n == k * q + r;
    assert n as real / k as real == q as real + r as real / k as real;
  }

  /** `floor(365.25 * n)`, the day count of `n` Julian years. */
  lemma FloorOfYears(n: int)
    ensures Floor(365.25 * n as real) == 365 * n + n / 4
  {
    assert 365.25 * n as real == (1461 * n) as real / 4.0;
    FloorOfQuotient(1461 * n, 4);
  }

  /**
   `floor(30.6001 * k)` is the integer `153 * k / 5` for every `k` below 2000:
   the extra 0.0001 per unit never pushes a value over the next integer.
   */
  lemma FloorOfMonths(k: int)
    requires 0 <= k < 2000
    ensures Floor(30.6001 * k as real) == 153 * k / 5
  {
    var q, r := 153 * k / 5, 153 * k % 5;
    assert 153 * k == 5 * q + r;
    assert 30.6001 * k as real == q as real + r as real / 5.0 + 0.0001 * k as real;
  }
}

=== FILE: intervals.dfy ===
/**
 The signed difference of two dates and the unsigned number of days between
 them, both read off the Julian Days of the dates.
 */
module Intervals {
  import opened DecimalArith
  import opened JulianDates
  import opened ClosedForm

  /** Swapping the dates negates the difference; a date is 0 days from itself. */
  lemma DifferenceAntisymmetric(a: CalendarDate, b: CalendarDate)
    ensures Difference(a, b) == -Difference(b, a)
    ensures Difference(a, a) == 0.0
  {
  }

  /** Differences add up along a chain of dates. */
  lemma DifferenceAdds(a: CalendarDate, b: CalendarDate, c: CalendarDate)
    ensures Difference(a, b) + Difference(b, c) == Difference(a, c)
  {
  }

  /** The days between two dates do not depend on their order. */
  lemma DaysBetweenSymmetric(a: CalendarDate, b: CalendarDate)
    ensures DaysBetween(a, b) == DaysBetween(b, a)
    ensures DaysBetween(a, b) == Difference(a, b) || DaysBetween(a, b) == Difference(b, a)
  {
  }

  /**
   Within one calendar, the days between two dates of the same month are
   the distance between their days of the month.
   */
  lemma DifferenceWithinMonth(a: CalendarDate, b: CalendarDate)
    requires a.y == b.y && a.m == b.m
    requires GetCalendar(a) == GetCalendar(b)
    ensures DaysBetween(a, b) == Abs(a.d - b.d)
  {
  }

  /** Consecutive days of one calendar are one day apart. */
  lemma DaysBetweenNextDay(c: CalendarDate)
    requires ValidDate(c)
    requires GetCalendar(NextDay(c)) == GetCalendar(c)
    ensures Difference(NextDay(c), c) == 1.0
    ensures DaysBetween(c, NextDay(c)) == 1.0
  {
    NextDayIsNextJulianDay(c);
  }
}

=== FILE: inverse.dfy ===
/**
 What the Julian-Day-to-date algorithm guarantees of its result. Every
 Julian Day from the epoch on gives a month between 1 and 12 and a day of
 the month in [1, 32), and converting that date back gives the Julian Day
 it came from: the date lands on the right side of the reform, and the
 century correction of the forward formula undoes the one applied here.
 */
module Inverse {
  import opened DecimalArith
  import opened JulianDates
  import opened ClosedForm

  /** First whole day number (Julian Day + 0.5, floored) of the Gregorian calendar. */
  const GregorianStart := 2299161

  /**
   The first steps of the inverse algorithm, named: `z` whole days and `f`
   fraction of a day since the midnight that starts Julian Day -0.5,
   `alpha` the Gregorian century count, and `a` the day number moved onto
   the Julian calendar's count.
   */
  lemma DayNumberStages(j: JulianDay) returns (z: int, f: real, alpha: int, a: int)
    requires 0.0 <= j.day
    ensures 0 <= z && z as real + f == j.day + 0.5 && 0.0 <= f < 1.0
    ensures z < GregorianStart <==> j.day < 2299160.5
    ensures alpha as real <= (z as real - 1867216.25) / 36524.25 < alpha as real + 1.0
    ensures a == if z < GregorianStart then z else z + 1 + alpha - alpha / 4
    ensures GregorianStart <= z ==> z + 10 <= a
    ensures FromJulianDay(j) == Ok(DateOfCount(a + 1524, f))
  {
    z := Floor(j.day + 0.5);
    f := j.day + 0.5 - z as real;
    alpha := Floor((z as real - 1867216.25) / 36524.25);
    FloorOfQuotient(alpha, 4);
    a := if z < GregorianStart then z else z + 1 + alpha - alpha / 4;
    assert a == JulianCount(z);
  }

  /**
   The remaining steps, named: from the shifted count `b`, `c` whole Julian
   years since -4716, `d` their days, `e` the month counted from March as
   4, and `g` the days of the months before it. The floors work out to
   `d == 365c + c/4` and `g == 153e/5`, and the day of the month is the
   whole number `b - d - g`, between 1 and 31, plus `f`.
   */
  lemma CountStages(b: int, f: real) returns (c: int, d: int, e: int, g: int)
    requires 0.0 <= f < 1.0
    ensures c as real <= (b as real - 122.1) / 365.25 < c as real + 1.0
    ensures d == 365 * c + c / 4 && 123 <= b - d <= 488
    ensures 4 <= e <= 15 && g == 153 * e / 5 && 1 <= b - d - g <= 31
    ensures DateOfCount(b, f) == CalendarDate(
      if e < 14 then c - 4716 else c - 4715,
      if e < 14 then e - 1 else e - 13,
      (b - d - g) as real + f)
  {
    c, d := YearSplit(b);
    e, g := MonthSplit(b - d);
  }

  /**
   The year stage: `c` whole Julian years since -4716 fit in day number `b`,
   and the `d` days they take leave between 123 and 488 days, which is
   March 1 of year `c` up to the end of February after it.
   */
  lemma YearSplit(b: int) returns (c: int, d: int)
    ensures c == Floor((b as real - 122.1) / 365.25)
    ensures d == Floor(365.25 * c as real) && d == 365 * c + c / 4
    ensures 123 <= b - d <= 488
  {
    c := Floor((b as real - 122.1) / 365.25);
    d := Floor(365.25 * c as real);
    FloorOfYears(c);
    assert 365.25 * c as real <= b as real - 122.1 < 365.25 * c as real + 365.25;
  }

  /**
   The month stage: `k` days into a March-based year fall in month `e`
   (March is 4, February of the next year 15), `g` days after its start,
   and the day of the month is between 1 and 31.
   */
  lemma MonthSplit(k: int) returns (e: int, g: int)
    requires 123 <= k <= 488
    ensures e == Floor(k as real / 30.6001) && 4 <= e <= 15
    ensures g == Floor(30.6001 * e as real) && g == 153 * e / 5
    ensures 1 <= k - g <= 31
  {
    e := Floor(k as real / 30.6001);
    assert 30.6001 * e as real <= k as real < 30.6001 * e as real + 30.6001;
    assert 4 <= e <= 15;
    FloorOfMonths(e);
    g := Floor(30.6001 * e as real);
    assert g as real < 30.6001 * e as real;
  }

  /** The month and day produced from a Julian Day that is not negative. */
  lemma FromJulianDayBounds(j: JulianDay)
    requires 0.0 <= j.day
    ensures FromJulianDay(j).Ok?
    ensures 1 <= FromJulianDay(j).value.m <= 12
    ensures 1.0 <= FromJulianDay(j).value.d < 32.0
  {
    var z, f, alpha, a := DayNumberStages(j);
    var c, d, e, g := CountStages(a + 1524, f);
  }

  /**
   The shifted counts of the Julian calendar's days up to 1582 October 14
   give dates the classifier reads as Julian, and the counts from the
   reform on give dates it reads as Gregorian. The ten counts in between
   are those of October 5 to 14, which no day number reaches.
   */
  lemma CountCalendar(b: int, f: real)
    requires 0.0 <= f < 1.0
    ensures GetCalendar(DateOfCount(b, f)) == Julian <==> b < 2300695
  {
    var c, d, e, g := CountStages(b, f);
    if b < 2300695 {
      assert c <= 6298;
      if c == 6298 {
        assert b - d <= 350 && e <= 11;
      }
    } else {
      assert c >= 6298;
      if c == 6298 {
        assert b - d >= 351 && e >= 11;
      }
    }
  }

  /**
   Day numbers before the reform give dates the classifier reads as Julian,
   and the others dates it reads as Gregorian.
   */
  lemma FromJulianDayCalendar(j: JulianDay)
    requires 0.0 <= j.day
    ensures FromJulianDay(j).Ok?
    ensures GetCalendar(FromJulianDay(j).value) == Julian <==> j.day < 2299160.5
  {
    var z, f, alpha, a := DayNumberStages(j);
    CountCalendar(a + 1524, f);
  }

  /**
   In the Gregorian range the year the algorithm produces has exactly the
   century that `alpha` counted, so the forward formula's century
   correction `2 - A + A/4` is the negation of `1 + alpha - alpha/4`.
   */
  lemma CenturyMatches(z: int, alpha: int, a: int, c: int)
    requires GregorianStart <= z
    requires alpha as real <= (z as real - 1867216.25) / 36524.25 < alpha as real + 1.0
    requires a == z + 1 + alpha - alpha / 4
    requires c as real <= ((a + 1524) as real - 122.1) / 365.25 < c as real + 1.0
    ensures (c - 4716) / 100 == alpha + 4
  {
    var q, r := alpha / 4, alpha % 4;
    assert alpha == 4 * q + r;
    assert 36524.25 * alpha as real + 1867216.25 <= z as real < 36524.25 * alpha as real + 1903740.5;
    assert a as real >= 36525.0 * alpha as real + 1867217.25;
    assert c >= 100 * alpha + 5116;
    if r == 0 {
      assert z <= 146097 * q + 1903740;
    } else if r == 1 {
      assert z <= 146097 * q + 1940264;
    } else if r == 2 {
      assert z <= 146097 * q + 1976788;
    } else {
      assert z <= 146097 * q + 2013313;
    }
    assert a <= 36525 * alpha + 1903742;
    assert c <= 100 * alpha + 5215;
    CenturyShift(c - 4716 - 100 * (alpha + 4), alpha + 4);
  }

  /**
   The month base of the date the algorithm assembles from `c` and `e` is
   the day count `d + g` of its stages, moved by the century correction of
   the year's calendar.
   */
  lemma MonthBaseOfCount(c: int, e: int, cal: Calendar)
    requires 4 <= e <= 15
    ensures MonthBase(if e < 14 then c - 4716 else c - 4715, if e < 14 then e - 1 else e - 13, cal)
      == 365 * c + c / 4 + 153 * e / 5 - 1524
        + (if cal == Julian then 0 else 2 - (c - 4716) / 100 + ((c - 4716) / 100) / 4)
  {
  }

  /**
   Converting a Julian Day from the epoch on to a date and back returns
   the same Julian Day.
   */
  lemma FromJulianDayRoundTrip(j: JulianDay)
    requires 0.0 <= j.day
    ensures FromJulianDay(j).Ok?
    ensures ToJulianDay(FromJulianDay(j).value) == j
  {
    var z, f, alpha, a := DayNumberStages(j);
    var b := a + 1524;
    var c, d, e, g := CountStages(b, f);
    var date := DateOfCount(b, f);
    CountCalendar(b, f);
    var cal := GetCalendar(date);
    JulianDayFromMonthBase(date);
    MonthBaseOfCount(c, e, cal);
    if cal == Gregorian {
      CenturyMatches(z, alpha, a, c);
      QuarterShift(alpha, 1);
    }
    assert MonthBase(date.y, date.m, cal) == z - (b - d - g);
  }
}

=== FILE: julian_dates.dfy ===
/**
 Conversion between civil calendar dates and Julian Days, after the
 algorithms of Meeus, "Astronomical Algorithms", chapter 7.

 A `CalendarDate` is a year in astronomical numbering (year 0 exists), a
 month and a day of the month whose fraction is the time of day. A
 `JulianDay` is the continuous day count whose day 0 is the noon of
 -4712-01-01 in the Julian calendar. Dates strictly before 1582-10-15 are
 read in the Julian calendar, later ones in the Gregorian calendar.
 */
module JulianDates {
  import opened DecimalArith

  datatype Result<+T, +E> = Ok(value: T) | Err(error: E)

  datatype Option<+T> = None | Some(value: T)

  /** Days of the week, numbered from Sunday = 0 as the engine does. */
  datatype WeekDay = Sunday | Monday | Tuesday | Wednesday | Thursday | Friday | Saturday

  datatype WeekDayError = InvalidDayNumber | NonIntegerDecimal

  datatype Calendar = Gregorian | Julian

  datatype CalendarDateError = InvalidJulianDay

  datatype JulianDay = JulianDay(day: real)

  /**
   A civil date. Construction checks nothing: the year, month and day are
   the caller's promise of a real calendar date.
   */
  datatype CalendarDate = CalendarDate(y: int, m: int, d: real)

  /** First day of the Gregorian calendar. */
  const Reform := CalendarDate(1582, 10, 15.0)

  /** The weekday's number, Sunday = 0 up to Saturday = 6. */
  function WeekDayNumber(w: WeekDay): (n: int)
    ensures 0 <= n < 7
  {
    match w
    case Sunday => 0
    case Monday => 1
    case Tuesday => 2
    case Wednesday => 3
    case Thursday => 4
    case Friday => 5
    case Saturday => 6
  }

  /**
   The decimal's conversion to an unsigned byte: negative values have none,
   others are truncated toward zero and must fit in 0..255.
   */
  function ToByte(x: real): (r: Option<int>)
    ensures r.Some? <==> 0.0 <= x < 256.0
    ensures r.Some? ==> r.value as real <= x < r.value as real + 1.0
  {
    if x < 0.0 || Trunc(x) > 255 then None else Some(Trunc(x))
  }

  /** A weekday read off a decimal day number. */
  function WeekDayFromDecimal(x: real): (r: Result<WeekDay, WeekDayError>)
    ensures r.Ok? <==> 0.0 <= x < 7.0
    ensures r.Ok? ==> WeekDayNumber(r.value) == Trunc(x)
    ensures r == Err(NonIntegerDecimal) <==> x < 0.0 || 256.0 <= x
    ensures r == Err(InvalidDayNumber) <==> 7.0 <= x < 256.0
  {
    match ToByte(x)
    case None => Err(NonIntegerDecimal)
    case Some(n) =>
      if n == 1 then Ok(Monday)
      else if n == 2 then Ok(Tuesday)
      else if n == 3 then Ok(Wednesday)
      else if n == 4 then Ok(Thursday)
      else if n == 5 then Ok(Friday)
      else if n == 6 then Ok(Saturday)
      else if n == 0 then Ok(Sunday)
      else Err(InvalidDayNumber)
  }

  /** Lexicographic order of dates: year, then month, then day. */
  predicate Before(a: CalendarDate, b: CalendarDate)
  {
    a.y < b.y || (a.y == b.y && (a.m < b.m || (a.m == b.m && a.d < b.d)))
  }

  /** The calendar in force on a date: Julian strictly before the reform. */
  function GetCalendar(c: CalendarDate): (cal: Calendar)
    ensures cal == Julian <==> Before(c, Reform)
  {
    var yearIsJulian := c.y < 1582;
    var monthIsJulian := c.y == 1582 && c.m < 10;
    var dayIsJulian := c.y == 1582 && c.m == 10 && c.d < 15.0;
    if yearIsJulian || monthIsJulian || dayIsJulian then Julian else Gregorian
  }

  /**
   Date to Julian Day. January and February count as months 13 and 14 of
   the previous year; Gregorian dates get the century correction `b`,
   chosen from the calendar of the date as given. Every whole-number part
   of the formula is an integer, so the Julian Day minus the day of the
   month is a whole number and a half.
   */
  function ToJulianDay(c: CalendarDate): (j: JulianDay)
    ensures Floor(j.day - c.d + 0.5) as real == j.day - c.d + 0.5
  {
    var y := if c.m == 1 || c.m == 2 then c.y - 1 else c.y;
    var m := if c.m == 1 || c.m == 2 then c.m + 12 else c.m;
    var b := CenturyCorrection(y, GetCalendar(c));
    var years := Floor(365.25 * (y as real + 4716.0));
    var months := Floor(30.6001 * (m as real + 1.0));
    var j := years as real + months as real + c.d + b as real - 1524.5;
    assert j - c.d + 0.5 == (years + months + b - 1524) as real;
    FloorOfWhole(years + months + b - 1524);
    JulianDay(j)
  }

  /**
   The correction `b` of the date-to-Julian-Day formula: none in the Julian
   calendar, and in the Gregorian calendar the leap days the Julian
   calendar would have had in the centuries not divisible by 400, less 2.
   */
  function CenturyCorrection(y: int, cal: Calendar): (b: int)
    ensures cal == Julian ==> b == 0
    ensures cal == Gregorian && 1500 <= y < 1700 ==> b == -10
  {
    match cal
    case Gregorian =>
      var a := Floor(y as real / 100.0);
      2 - a + Floor(a as real / 4.0)
    case Julian => 0
  }

  /**
   Julian Day to date, the inverse algorithm. Negative Julian Days are
   refused; otherwise the Julian Day plus one half splits into a whole day
   number and the fraction of the day that has passed since midnight, which
   the day of the month keeps.
   */
  function FromJulianDay(j: JulianDay): (r: Result<CalendarDate, CalendarDateError>)
    ensures r.Err? <==> j.day < 0.0
    ensures r.Ok? ==> Frac(r.value.d) == Frac(j.day + 0.5)
  {
    if j.day < 0.0 then Err(InvalidJulianDay)
    else
      var jd := j.day + 0.5;
      var z := Floor(jd);
      var f := jd - z as real;
      FracOfShift(z, f);
      Ok(DateOfCount(JulianCount(z) + 1524, f))
  }

  /**
   The inverse algorithm's `A`: whole day number `z` moved onto the count
   of the Julian calendar, by adding back the Gregorian calendar's dropped
   leap days from the reform on.
   */
  function JulianCount(z: int): (a: int)
    ensures z < 2299161 ==> a == z
    ensures 2299161 <= z ==> z + 10 <= a
  {
    if z < 2299161 then z
    else
      var alpha := Floor((z as real - 1867216.25) / 36524.25);
      z + 1 + alpha - Floor(alpha as real / 4.0)
  }

  /**
   The rest of the inverse algorithm: the date whose Julian-calendar count,
   shifted by 1524 days, is `b`, `f` of the day later. Every intermediate
   value is a whole number, so it is held as an `int`, and the truncation
   of the year and month at the end is the identity.
   */
  function DateOfCount(b: int, f: real): (date: CalendarDate)
    requires 0.0 <= f < 1.0
    ensures Frac(date.d) == f
  {
    var c := Floor((b as real - 122.1) / 365.25);
    var d := Floor(365.25 * c as real);
    var e := Floor((b - d) as real / 30.6001);
    var day := (b - d - Floor(30.6001 * e as real)) as real + f;
    var month := if e < 14 then e - 1 else e - 13;
    var year := if month > 2 then c - 4716 else c - 4715;
    FracOfShift(b - d - Floor(30.6001 * e as real), f);
    CalendarDate(year, month, day)
  }

  /**
   Leap year, exactly as the engine decides it: the Gregorian branch tests
   divisibility by 4 only, the Julian branch applies the century rule.
   */
  function LeapYear(c: CalendarDate): (leap: bool)
    ensures leap ==> c.y % 4 == 0
    ensures c.y % 4 == 0 && c.y % 100 != 0 ==> leap
    ensures c.y % 400 == 0 ==> leap
  {
    DivisibilityAgrees(c.y);
    match GetCalendar(c)
    case Gregorian => IntRem(c.y, 4) == 0
    case Julian => IntRem(c.y, 4) == 0 && (IntRem(c.y, 100) != 0 || IntRem(c.y, 400) == 0)
  }

  /**
   Signed number of days from `rhs` to `lhs`. Two dates of the same month
   and calendar are as many days apart as their days of the month differ.
   */
  function Difference(lhs: CalendarDate, rhs: CalendarDate): (r: real)
    ensures lhs.y == rhs.y && lhs.m == rhs.m && GetCalendar(lhs) == GetCalendar(rhs)
      ==> r == lhs.d - rhs.d
  {
    ToJulianDay(lhs).day - ToJulianDay(rhs).day
  }

  /** Unsigned number of days between two dates. */
  function DaysBetween(lhs: CalendarDate, rhs: CalendarDate): (r: real)
    ensures 0.0 <= r
    ensures r == 0.0 <==> ToJulianDay(lhs) == ToJulianDay(rhs)
  {
    Abs(Difference(lhs, rhs))
  }

  /** The date with its day rounded to the nearest midnight. */
  function Midnight(c: CalendarDate): (mid: CalendarDate)
    ensures mid.y == c.y && mid.m == c.m
    ensures Floor(mid.d) as real == mid.d && Abs(mid.d - c.d) <= 0.5
  {
    CalendarDate(c.y, c.m, RoundHalfEven(c.d) as real)
  }

  /**
   The weekday of a date: the Julian Day of its rounded day plus 1.5 is a
   whole day count, whose remainder by 7 numbers the weekday. The result is
   what the engine unwraps; an `Err` is where the engine would panic. The
   remainder is below 7, so the only failure is a negative remainder, which
   a Julian Day from -1.5 on never gives.
   */
  function DayOfTheWeek(c: CalendarDate): (r: Result<WeekDay, WeekDayError>)
    ensures r.Err? ==> r.error == NonIntegerDecimal
    ensures -1.5 <= ToJulianDay(Midnight(c)).day ==> r.Ok?
  {
    var jd := ToJulianDay(Midnight(c));
    WeekDayFromDecimal(DecRem7(jd.day + 1.5))
  }

  /**
   The ordinal formula of the day of the year, given whether the year is
   taken to be a leap year. January counts its days from 0 and February
   from 31, whatever that decision.
   */
  function OrdinalWith(c: CalendarDate, leap: bool): (n: int)
    ensures c.m == 1 ==> n == Trunc(c.d)
    ensures c.m == 2 ==> n == Trunc(31.0 + c.d)
  {
    var k := if leap then 1.0 else 2.0;
    var n := Floor(275.0 * c.m as real / 9.0) as real
      - k * Floor((c.m as real + 9.0) / 12.0) as real + c.d - 30.0;
    Trunc(n)
  }

  /**
   The day of the year, with the leap-year decision as the engine makes it.
   Years not divisible by 4 are counted as common years, and years divisible
   by 4 but not by 100 as leap years.
   */
  function DayOfTheYear(c: CalendarDate): (n: int)
    ensures c.y % 4 != 0 ==> n == OrdinalWith(c, false)
    ensures c.y % 4 == 0 && c.y % 100 != 0 ==> n == OrdinalWith(c, true)
  {
    OrdinalWith(c, LeapYear(c))
  }
}

=== FILE: leap_years.dfy ===
/**
 The engine's leap-year test set against the calendar its own date-to-Julian-
 Day formula counts. The formula gives February 29 days in every fourth
 Julian year and in the Gregorian leap years; the engine's test swaps the
 two rules, so the two disagree exactly in the centuries not divisible by 400.
 */
module LeapYears {
  import opened DecimalArith
  import opened JulianDates
  import opened ClosedForm

  /** The leap-year decision of the calendar in force on the date. */
  function LeapYearIntended(c: CalendarDate): (leap: bool)
  {
    CalendarLeap(c.y, GetCalendar(c))
  }

  /**
   February's length, as the formula counts it, in any year: the distance
   between the same day of February and of March. Both months lie on the
   same side of the reform, so one calendar reads them both.
   */
  lemma FebruaryLength(y: int, d: real)
    ensures ToJulianDay(CalendarDate(y, 3, d)).day - ToJulianDay(CalendarDate(y, 2, d)).day
      == DaysInMonth(y, 2, GetCalendar(CalendarDate(y, 2, d))) as real
  {
    var feb, mar := CalendarDate(y, 2, d), CalendarDate(y, 3, d);
    assert GetCalendar(feb) == GetCalendar(mar);
    JulianDayFromMonthBase(feb);
    JulianDayFromMonthBase(mar);
    MonthLength(y, 2, GetCalendar(feb));
  }

  /**
   The intended decision says leap exactly when the formula gives that
   year's February 29 days, whatever the date within the year.
   */
  lemma LeapYearIntendedMatchesFebruary(c: CalendarDate)
    ensures LeapYearIntended(c) <==>
      ToJulianDay(CalendarDate(c.y, 3, 1.0)).day - ToJulianDay(CalendarDate(c.y, 2, 1.0)).day == 29.0
  {
    FebruaryLength(c.y, 1.0);
    var cal := GetCalendar(CalendarDate(c.y, 2, 1.0));
    if GetCalendar(c) != cal {
      assert c.y == 1582;
      assert !CalendarLeap(c.y, Julian) && !CalendarLeap(c.y, Gregorian);
    }
  }

  /**
   The engine's decision and the intended one part exactly in the years
   divisible by 100 but not by 400, in either calendar.
   */
  lemma LeapYearAsWrittenDiffers(c: CalendarDate)
    ensures LeapYear(c) != LeapYearIntended(c) <==> c.y % 100 == 0 && c.y % 400 != 0
  {
    DivisibilityAgrees(c.y);
    if c.y % 100 == 0 {
      CenturyIsLeapCandidate(c.y);
    }
  }

  /** Every century year is divisible by 4. */
  lemma CenturyIsLeapCandidate(y: int)
    requires y % 100 == 0
    ensures y % 4 == 0
  {
    var q := y / 100;
    assert y == 4 * (25 * q);
  }

  /** 1900 is a leap year to the engine, yet its February has 28 days. */
  lemma LeapYear1900()
    ensures LeapYear(CalendarDate(1900, 3, 1.0))
    ensures !LeapYearIntended(CalendarDate(1900, 3, 1.0))
    ensures ToJulianDay(CalendarDate(1900, 3, 1.0)).day - ToJulianDay(CalendarDate(1900, 2, 1.0)).day == 28.0
  {
    FebruaryLength(1900, 1.0);
  }

  /** 1500 is a common year to the engine, yet its February has 29 days. */
  lemma LeapYear1500()
    ensures !LeapYear(CalendarDate(1500, 3, 1.0))
    ensures LeapYearIntended(CalendarDate(1500, 3, 1.0))
    ensures ToJulianDay(CalendarDate(1500, 3, 1.0)).day - ToJulianDay(CalendarDate(1500, 2, 1.0)).day == 29.0
  {
    FebruaryLength(1500, 1.0);
  }
}

=== FILE: test_vectors.dfy ===
/**
 The worked examples of the engine's own tests, and of the documentation of
 its weekday query, restated as lemmas about the model.
 */
module TestVectors {
  import opened DecimalArith
  import opened JulianDates

  /** Dates on either side of the reform, and the two sides of its first day. */
  lemma CalendarExamples()
    ensures GetCalendar(CalendarDate(1957, 10, 4.81)) == Gregorian
    ensures GetCalendar(CalendarDate(333, 1, 27.5)) == Julian
    ensures GetCalendar(CalendarDate(1582, 10, 14.9)) == Julian
    ensures GetCalendar(CalendarDate(1582, 10, 15.0)) == Gregorian
    ensures GetCalendar(CalendarDate(1582, 9, 30.0)) == Julian
    ensures GetCalendar(CalendarDate(1583, 1, 1.0)) == Gregorian
  {
  }

  /** Example 7.a of Meeus: 1957 October 4.81 (the launch of Sputnik 1). */
  lemma Example7a()
    ensures ToJulianDay(CalendarDate(1957, 10, 4.81)).day == 2436116.31
  {
  }

  /** Example 7.b of Meeus: 333 January 27 at noon. */
  lemma Example7b()
    ensures ToJulianDay(CalendarDate(333, 1, 27.5)).day == 1842713.0
  {
  }

  lemma GregorianExamples()
    ensures ToJulianDay(CalendarDate(2000, 1, 1.5)).day == 2451545.0
    ensures ToJulianDay(CalendarDate(1999, 1, 1.0)).day == 2451179.5
  {
  }

  lemma MoreGregorianExamples()
    ensures ToJulianDay(CalendarDate(1987, 1, 27.0)).day == 2446822.5
    ensures ToJulianDay(CalendarDate(1600, 12, 31.0)).day == 2305812.5
  {
  }

  lemma JulianCalendarExamples()
    ensures ToJulianDay(CalendarDate(837, 4, 10.3)).day == 2026871.8
    ensures ToJulianDay(CalendarDate(-123, 12, 31.0)).day == 1676496.5
  {
  }

  /** The last of them is the epoch itself: noon of -4712 January 1. */
  lemma MoreJulianCalendarExamples()
    ensures ToJulianDay(CalendarDate(-1000, 7, 12.5)).day == 1356001.0
    ensures ToJulianDay(CalendarDate(-4712, 1, 1.5)).day == 0.0
  {
  }

  /** A Julian Day before the epoch is refused. */
  lemma NegativeJulianDayRefused()
    ensures FromJulianDay(JulianDay(-1.0)) == Err(InvalidJulianDay)
  {
  }

  /** Example 7.a read backwards. */
  lemma CalendarDateExamples()
    ensures FromJulianDay(JulianDay(2436116.31)) == Ok(CalendarDate(1957, 10, 4.81))
  {
    assert Floor(2436116.81) == 2436116;
    assert JulianCount(2436116) == 2436129;
    assert DateOfCount(2437653, 0.81) == CalendarDate(1957, 10, 4.81);
  }

  /** From 1910 April 20 to 1986 February 9. */
  lemma IntervalExample()
    ensures DaysBetween(CalendarDate(1910, 4, 20.0), CalendarDate(1986, 2, 9.0)) == 27689.0
  {
    var first, second := CalendarDate(1910, 4, 20.0), CalendarDate(1986, 2, 9.0);
    assert ToJulianDay(first).day == 2418781.5;
    assert ToJulianDay(second).day == 2446470.5;
    assert Difference(first, second) == -27689.0;
  }

  /** 1954 June 30 was a Wednesday. */
  lemma WeekDayExample()
    ensures DayOfTheWeek(CalendarDate(1954, 6, 30.0)) == Ok(Wednesday)
  {
    var date := CalendarDate(1954, 6, 30.0);
    assert Midnight(date) == date;
    assert ToJulianDay(date).day == 2434923.5;
    assert DecRem7(2434925.0) == 3.0;
  }

  /** The reform kept the week running: 1582 October 4 was a Thursday ... */
  lemma LastJulianWeekDay()
    ensures DayOfTheWeek(CalendarDate(1582, 10, 4.0)) == Ok(Thursday)
  {
    var date := CalendarDate(1582, 10, 4.0);
    assert Midnight(date) == date;
    assert ToJulianDay(date).day == 2299159.5;
    assert DecRem7(2299161.0) == 4.0;
  }

  /** ... and the following day, 1582 October 15, a Friday. */
  lemma FirstGregorianWeekDay()
    ensures DayOfTheWeek(CalendarDate(1582, 10, 15.0)) == Ok(Friday)
  {
    var date := CalendarDate(1582, 10, 15.0);
    assert Midnight(date) == date;
    assert ToJulianDay(date).day == 2299160.5;
    assert DecRem7(2299162.0) == 5.0;
  }

  /** 1978 November 14 and 1988 April 22 are days 318 and 113 of their years. */
  lemma DayOfTheYearExamples()
    ensures DayOfTheYear(CalendarDate(1978, 11, 14.0)) == 318
    ensures DayOfTheYear(CalendarDate(1988, 4, 22.0)) == 113
  {
  }
}

=== FILE: week_days.dfy ===
/**
 The weekday query. The Julian Day of a date's midnight plus 1.5 is a whole
 day count, and the weekday is that count modulo 7, so the weekdays follow
 one another in step with the days of the calendar, across the reform too.
 */
module WeekDays {
  import opened DecimalArith
  import opened JulianDates
  import opened ClosedForm

  /** The whole day count the weekday is read from. */
  function DayCount(c: CalendarDate): (n: int)
  {
    Floor(ToJulianDay(Midnight(c)).day + 1.5)
  }

  /** The Julian Day of a midnight plus 1.5 is a whole number. */
  lemma DayCountIsWhole(c: CalendarDate)
    ensures DayCount(c) as real == ToJulianDay(Midnight(c)).day + 1.5
  {
    var mid := Midnight(c);
    var j := ToJulianDay(mid).day;
    var n := Floor(j - mid.d + 0.5) + RoundHalfEven(c.d) + 1;
    assert j + 1.5 == n as real;
    FloorOfWhole(n);
  }

  /** The truncated remainder of a whole day count. */
  lemma WholeRemainder(n: int)
    ensures 0 <= n ==> DecRem7(n as real) == (n % 7) as real
    ensures n < 0 ==> DecRem7(n as real) == (if n % 7 == 0 then 0 else n % 7 - 7) as real
  {
    WholeQuotient(n);
    if n < 0 {
      var m := -n;
      assert DecRem7(n as real) == -(m - 7 * (m / 7)) as real;
      assert m - 7 * (m / 7) == m % 7;
      NegatedRemainder(n);
    }
  }

  /** The decimal quotient by 7 of a whole number, truncated. */
  lemma WholeQuotient(n: int)
    ensures Trunc(n as real / 7.0) == if 0 <= n then n / 7 else -((-n) / 7)
  {
    if 0 <= n {
      FloorOfQuotient(n, 7);
    } else {
      FloorOfQuotient(-n, 7);
      assert -(n as real / 7.0) == (-n) as real / 7 as real;
    }
  }

  /** The Euclidean remainders of `n` and `-n` by 7 add up to 7, unless both are 0. */
  lemma NegatedRemainder(n: int)
    ensures (-n) % 7 == if n % 7 == 0 then 0 else 7 - n % 7
  {
    var q, r := n / 7, n % 7;
    assert n == 7 * q + r;
    if r == 0 {
      RemainderOfSplit(-n, -q, 0);
    } else {
      RemainderOfSplit(-n, -q - 1, 7 - r);
    }
  }

  /** A split `a == 7k + r` with `r` in 0..6 names the remainder of `a` by 7. */
  lemma RemainderOfSplit(a: int, k: int, r: int)
    requires 0 <= r < 7 && a == 7 * k + r
    ensures a % 7 == r
  {
    assert a == 7 * (a / 7) + a % 7;
    assert 7 * (a / 7 - k) == r - a % 7;
  }

  /**
   From the epoch on, the weekday is defined and numbered by the day count
   modulo 7. Before it, every count not divisible by 7 gives a negative
   remainder, which no weekday number takes.
   */
  lemma DayOfTheWeekFromDayCount(c: CalendarDate)
    ensures 0 <= DayCount(c) ==>
      DayOfTheWeek(c).Ok? && WeekDayNumber(DayOfTheWeek(c).value) == DayCount(c) % 7
    ensures DayCount(c) < 0 && DayCount(c) % 7 != 0 ==> DayOfTheWeek(c) == Err(NonIntegerDecimal)
  {
    DayCountIsWhole(c);
    WholeRemainder(DayCount(c));
  }

  /** The weekday after `w`. */
  function Following(w: WeekDay): (r: WeekDay)
    ensures WeekDayNumber(r) == (WeekDayNumber(w) + 1) % 7
  {
    match w
    case Sunday => Monday
    case Monday => Tuesday
    case Tuesday => Wednesday
    case Wednesday => Thursday
    case Thursday => Friday
    case Friday => Saturday
    case Saturday => Sunday
  }

  /** Weekdays advance with the day count, modulo 7. */
  lemma WeekDaysFollowDayCount(a: CalendarDate, b: CalendarDate)
    requires 0 <= DayCount(a) && 0 <= DayCount(b)
    ensures DayOfTheWeek(a).Ok? && DayOfTheWeek(b).Ok?
    ensures WeekDayNumber(DayOfTheWeek(b).value)
      == (WeekDayNumber(DayOfTheWeek(a).value) + (DayCount(b) - DayCount(a))) % 7
  {
    DayOfTheWeekFromDayCount(a);
    DayOfTheWeekFromDayCount(b);
    var p, q := DayCount(a), DayCount(b);
    assert p == 7 * (p / 7) + p % 7;
    ModShift(p % 7 + (q - p), p / 7);
  }

  /** Whole weeks do not change a remainder modulo 7. */
  lemma ModShift(a: int, n: int)
    ensures (a + 7 * n) % 7 == a % 7
  {
  }

  /**
   On whole days, the day after a date of the calendar falls on the next
   weekday, as long as the epoch has begun and the calendar stays the same.
   */
  lemma WeekDayOfNextDay(c: CalendarDate)
    requires ValidDate(c) && c.d == Floor(c.d) as real
    requires GetCalendar(NextDay(c)) == GetCalendar(c)
    requires 0 <= DayCount(c)
    ensures DayOfTheWeek(c).Ok? && DayOfTheWeek(NextDay(c)).Ok?
    ensures DayOfTheWeek(NextDay(c)).value == Following(DayOfTheWeek(c).value)
  {
    DayCountOfNextDay(c);
    WeekDaysFollowDayCount(c, NextDay(c));
    WeekDayNumberInjective(DayOfTheWeek(NextDay(c)).value, Following(DayOfTheWeek(c).value));
  }

  /** On whole days, the day count of the next day of one calendar is one more. */
  lemma DayCountOfNextDay(c: CalendarDate)
    requires ValidDate(c) && c.d == Floor(c.d) as real
    requires GetCalendar(NextDay(c)) == GetCalendar(c)
    ensures DayCount(NextDay(c)) == DayCount(c) + 1
  {
    var n := NextDay(c);
    assert n.d == Floor(n.d) as real;
    MidnightOfWhole(c);
    MidnightOfWhole(n);
    NextDayIsNextJulianDay(c);
    DayCountIsWhole(c);
    DayCountIsWhole(n);
  }

  /** A date on a whole day is its own midnight. */
  lemma MidnightOfWhole(c: CalendarDate)
    requires c.d == Floor(c.d) as real
    ensures Midnight(c) == c
  {
    assert RoundHalfEven(c.d) as real == c.d;
  }

  /**
   The engine reads the weekday at the nearest midnight, not at the one
   that starts the day: the evening of Friday 1957 October 4 reads as
   Saturday.
   */
  lemma EveningReadsNextWeekDay()
    ensures DayOfTheWeek(CalendarDate(1957, 10, 4.0)) == Ok(Friday)
    ensures DayOfTheWeek(CalendarDate(1957, 10, 4.81)) == Ok(Saturday)
  {
    assert Midnight(CalendarDate(1957, 10, 4.0)) == CalendarDate(1957, 10, 4.0);
    assert Midnight(CalendarDate(1957, 10, 4.81)) == CalendarDate(1957, 10, 5.0);
    assert ToJulianDay(CalendarDate(1957, 10, 4.0)).day == 2436115.5;
    assert ToJulianDay(CalendarDate(1957, 10, 5.0)).day == 2436116.5;
    assert DecRem7(2436117.0) == 5.0;
    assert DecRem7(2436118.0) == 6.0;
  }

  /**
   Noon rounds to the even day: noon of Friday 1957 October 4 reads as
   Friday, and noon of Saturday October 5 as Sunday, so the noon readings
   skip Saturday.
   */
  lemma NoonSkipsWeekDay()
    ensures DayOfTheWeek(CalendarDate(1957, 10, 4.5)) == Ok(Friday)
    ensures DayOfTheWeek(CalendarDate(1957, 10, 5.5)) == Ok(Sunday)
  {
    assert Midnight(CalendarDate(1957, 10, 4.5)) == CalendarDate(1957, 10, 4.0);
    assert Midnight(CalendarDate(1957, 10, 5.5)) == CalendarDate(1957, 10, 6.0);
    assert ToJulianDay(CalendarDate(1957, 10, 4.0)).day == 2436115.5;
    assert ToJulianDay(CalendarDate(1957, 10, 6.0)).day == 2436117.5;
    assert DecRem7(2436117.0) == 5.0;
    assert DecRem7(2436119.0) == 0.0;
  }

  /** The midnight that starts the day a date falls in: its day floored. */
  function StartOfDay(c: CalendarDate): (start: CalendarDate)
    ensures start.y == c.y && start.m == c.m
    ensures Floor(start.d) as real == start.d && start.d <= c.d < start.d + 1.0
  {
    CalendarDate(c.y, c.m, Floor(c.d) as real)
  }

  /**
   The weekday of the day a date falls in: the engine's computation, read
   at the midnight that starts the day instead of the nearest one. On whole
   days it is the engine's weekday.
   */
  function DayOfTheWeekIntended(c: CalendarDate): (r: Result<WeekDay, WeekDayError>)
    ensures c.d == Floor(c.d) as real ==> r == DayOfTheWeek(c)
    ensures r.Err? ==> r.error == NonIntegerDecimal
  {
    var jd := ToJulianDay(StartOfDay(c));
    MidnightOfWhole(StartOfDay(c));
    WeekDayFromDecimal(DecRem7(jd.day + 1.5))
  }

  /** Every time of 1957 October 4 reads as Friday. */
  lemma EveningReadsSameWeekDay()
    ensures DayOfTheWeekIntended(CalendarDate(1957, 10, 4.81)) == Ok(Friday)
    ensures DayOfTheWeekIntended(CalendarDate(1957, 10, 4.5)) == Ok(Friday)
  {
    assert StartOfDay(CalendarDate(1957, 10, 4.81)) == CalendarDate(1957, 10, 4.0);
    assert StartOfDay(CalendarDate(1957, 10, 4.5)) == CalendarDate(1957, 10, 4.0);
    assert ToJulianDay(CalendarDate(1957, 10, 4.0)).day == 2436115.5;
    assert DecRem7(2436117.0) == 5.0;
  }

  /**
   The start of the day after a date of the calendar is the day after the
   start of its day, and both starts are read in the date's calendar.
   */
  lemma StartOfNextDay(c: CalendarDate)
    requires ValidDate(c)
    ensures ValidDate(StartOfDay(c)) && GetCalendar(StartOfDay(c)) == GetCalendar(c)
    ensures StartOfDay(NextDay(c)) == NextDay(StartOfDay(c))
  {
    var s := StartOfDay(c);
    var len := DaysInMonth(c.y, c.m, GetCalendar(c));
    FracOfShift(Floor(c.d) + 1, c.d - Floor(c.d) as real);
    FracOfShift(Floor(c.d) + 1 - len, c.d - Floor(c.d) as real);
  }

  /**
   At any time of a day of the calendar, the day after it falls on the
   following weekday, as long as the epoch has begun and the calendar stays
   the same.
   */
  lemma WeekDayIntendedOfNextDay(c: CalendarDate)
    requires ValidDate(c)
    requires GetCalendar(NextDay(c)) == GetCalendar(c)
    requires -1.5 <= ToJulianDay(StartOfDay(c)).day
    ensures DayOfTheWeekIntended(c).Ok? && DayOfTheWeekIntended(NextDay(c)).Ok?
    ensures DayOfTheWeekIntended(NextDay(c)).value == Following(DayOfTheWeekIntended(c).value)
  {
    var s := StartOfDay(c);
    StartOfNextDay(c);
    MidnightOfWhole(s);
    DayCountIsWhole(s);
    WeekDayOfNextDay(s);
    WeekDayOfStart(c);
    WeekDayOfStart(NextDay(c));
  }

  /** The weekday of a date is the engine's weekday of the start of its day. */
  lemma WeekDayOfStart(c: CalendarDate)
    ensures DayOfTheWeekIntended(c) == DayOfTheWeek(StartOfDay(c))
  {
    MidnightOfWhole(StartOfDay(c));
  }

  /** Distinct weekdays have distinct numbers. */
  lemma WeekDayNumberInjective(v: WeekDay, w: WeekDay)
    requires WeekDayNumber(v) == WeekDayNumber(w)
    ensures v == w
  {
  }
}
